=== FILE: README.md ===
# Art gallery page: state model

A Dafny model of the logic inside the gallery page's `script.js`. The page
keeps a list of photo records, newest first, written to the browser's local
storage, capped at 100 records, on every save. Between saves the list in
memory can hold more. It also keeps a set of selected
positions, and two flags: whether the gallery screen is shown and whether
the full-screen preview overlay is shown. The model holds all of this in one
immutable value, `Store.Gallery`. It adds `stored`, the list as last
written to storage. Every handler becomes a pure transition on that value.
The user's answer to a confirmation dialog, the key pressed with its
modifiers, and the order in which file reads finish are all inputs.

Modules, following the structure of the script:

- `Records` (records.dfy): the photo record, and the caption name a cell
  shows. A missing name becomes `obra_<position + 1>`.
- `Removal` (removal.dfy): `splice(i, 1)` and running it over a list of
  indices. It also holds the descending sort of the selection and `Keep`,
  the positional filter that bulk deletion is meant to compute.
- `Store` (store.dfy): the gallery state, `savePhotos` with its retention
  cap, the two selection toggles, single and bulk delete, and the toolbar
  that `updateUI` draws. The state keeps the toolbar as last drawn. Only
  opening the gallery and the two selection toggles call `updateUI`, so
  after a delete or an upload the drawn toolbar can be out of date.
- `Render` (render.dfy): the data each grid cell carries when
  `renderFeedPhotos` draws a state. The model does not keep the drawn
  grid: it describes what a render of a given state shows.
- `Upload` (upload.dfy): `handleFileUpload`. It covers image filtering and
  the completion callbacks with their shared counter. It also covers the
  single save and the feedback, which happen only when the counter reaches
  the batch size inside `onload`.
- `Controller` (controller.dfy): the gallery screen and the preview
  overlay, and `handleKeyPress`. A dispatcher maps every listened-for event
  to its transition.

Behaviour of the code that the model keeps on purpose:

- Bulk delete splices in descending order. It removes exactly the selected
  positions that are inside the list, and the survivors keep their order
  (`Removal.SpliceDescending`).
- A single delete removes its index from the selection but does not
  renumber the others. A selected index above the deleted one then names
  the next record, and one past the end can stay selected. While such a
  stale index is selected, the selection's size differs from the list
  length, and the list does not change, select-all grows the selection
  past the list length and pressing it again does not clear it
  (`Store.StaleIndexBlocksDeselect`). Opening the gallery or a bulk delete
  clears the selection; a list that grows to the selection's size lets
  select-all clear it again.
- Only `onload` checks whether the batch is complete, so the batch is
  saved only when the last read to finish succeeds. If it fails, nothing is
  saved and no feedback is shown; the records that were read stay in
  memory, unsaved. The feedback shows the number of image files, failures
  included, so it reads 3 when one of three reads fails
  (`Upload.UploadOneFailureOfThree`).
- Uploads prepend records without shifting the selection, and a single
  delete removes only the deleted index from it. Select-all (when the
  sizes match), a bulk delete and opening the gallery clear it.
- A bulk delete, a single delete and an upload do not redraw the toolbar.
  After a confirmed bulk delete the delete button stays enabled with
  nothing selected (`Store.DeleteLeavesButtonEnabled`). After an upload
  into a fully selected gallery of fewer than 100 records the label still
  reads "deselect all", although pressing it now selects the new records
  (`Upload.UploadLeavesLabelStale`).

## Model

| member | source | states |
|---|---|---|
| Records.DisplayName | script.js:118 | the caption name is the record's own name when it is non-empty, otherwise the `obra_` placeholder for its position; it is never empty |
| Records.DefaultNameInjective | script.js:118 | two positions with the same placeholder name are the same position |
| Records.UnnamedCaptionsDistinct | script.js:118 | unnamed records at different positions never share a caption name |
| Records.ParseDecimalOfDecimal | script.js:118 | the numeral in a placeholder name reads back as the number it was made from |
| Removal.RemoveAt | script.js:192 | `splice(i, 1)` keeps the records before i, moves the later ones down by one, and changes nothing when i is at or past the end |
| Removal.RemoveAtIsKeep | script.js:192 | `splice(i, 1)` deletes exactly position i and is a no-op when i is at or past the end |
| Removal.SortDescending | script.js:177 | the sorted selection lists every selected index once, in strictly decreasing order |
| Removal.SpliceDescending | script.js:176-180 | splicing indices in strictly decreasing order deletes exactly those positions and keeps the rest in relative order |
| Removal.SpliceEachFrame | script.js:176-180 | splices below the length of a prefix never touch the records after it, which is why descending order is safe |
| Removal.KeepLength | script.js:172-185 | the number of records a bulk delete removes is the number of selected indices inside the list |
| Removal.KeepPlacesSurvivor | script.js:172-185 | an unselected record survives, moved down by the number of selected positions before it |
| Store.Cap | script.js:295-297 | the kept records are a prefix of the list, of length min(n, 100) |
| Store.Save | script.js:294-299 | after a save the list is a prefix of the old list: all of it when it had at most 100 records, exactly the first 100 otherwise; storage holds exactly it |
| Store.SaveIdempotent | script.js:294-297 | saving twice is the same as saving once |
| Store.ToggleSelection | script.js:152-159 | exactly the toggled index changes membership and the toolbar is redrawn for the new selection; the records and every other field are unchanged |
| Store.ToggleSelectionInvolution | script.js:152-159 | toggling the same index twice restores the state, with the toolbar redrawn |
| Store.AllIndicesExact | script.js:166 | the indices select-all adds are exactly 0..n-1, n of them |
| Store.ToggleSelectAll | script.js:162-169 | when the selection's size equals the list length the selection becomes empty, otherwise it becomes the old selection plus every position; the toolbar is redrawn |
| Store.ToggleSelectAllInBounds | script.js:162-169 | with an in-range selection, select-all gives every position unless all are selected, and then gives the empty set |
| Store.SelectAllThenDeselect | script.js:162-169 | from an empty selection one toggle selects every position and a second clears it |
| Store.StaleIndexBlocksDeselect | script.js:162-169 | with an out-of-range selected index and a selection whose size differs from the list length, select-all grows the selection past the list length, and a second press on the unchanged list does not clear it |
| Store.DeleteSelected | script.js:172-187 | with no selection or a declined dialog nothing changes; otherwise the list becomes the records at unselected positions, capped and saved, and the selection is cleared |
| Store.DeleteSelectedRemovesExactly | script.js:172-185 | a confirmed bulk delete shortens the list by the number of in-range selected indices and moves each survivor down by the selected positions before it |
| Store.DeleteSelectedFirstAndLast | script.js:172-185 | deleting positions 0 and 4 of five records leaves the three middle records in order |
| Store.DeleteSingle | script.js:190-198 | a declined dialog changes nothing; a confirmed one deletes only that position (none when out of range), removes only that index from the selection, and saves |
| Store.DeleteSingleRetargetsSelection | script.js:192-193 | a selected index above the deleted one (and below the cap the save keeps) stays selected but now names the record that followed the one selected, at any list length |
| Store.Redraw | script.js:231-236 | `updateUI` replaces the drawn toolbar with the one for the current selection and list, and changes nothing else |
| Store.ToolbarOf | script.js:231-236 | in the toolbar `updateUI` draws for a state, the label reads "deselect all" exactly when the selection's size equals the list length, and delete is disabled exactly when the selection is empty |
| Store.ToolbarLabelPredictsToggle | script.js:231-233 | in the toolbar `updateUI` would draw for a state, the label reads "deselect all" exactly when pressing select-all empties the selection |
| Store.ToolbarLabelInBounds | script.js:231-233 | with an in-range selection, the label `updateUI` would draw reads "deselect all" exactly when every position is selected |
| Store.FullSizeMeansAll | script.js:163 | an in-range selection has the list's size exactly when it holds every position |
| Store.ToolbarDeletePredictsDelete | script.js:234-236 | delete is disabled in the toolbar `updateUI` would draw exactly when a confirmed bulk delete would leave the selection unchanged |
| Store.DeleteLeavesButtonEnabled | script.js:172-187 | a bulk delete does not call `updateUI`: from a current toolbar, a confirmed delete empties the selection but the drawn delete button stays enabled, and pressing it again changes nothing |
| Render.RenderGrid | script.js:105-118 | what a render of a state draws: no records gives the empty message; otherwise one cell per record, in order, with its source, caption name and a selected class exactly for selected positions |
| Render.ToggleFlipsOneCell | script.js:114 | a render of the toggled state differs from a render of the old state only in the selected class of the toggled cell; the toggle itself does not re-render |
| Render.UnnamedCellNamesDistinct | script.js:118 | two cells of unnamed records never show the same name |
| Upload.ImageFilesCount | script.js:247-248 | each file whose MIME type starts with `image/` is accepted as many times as it was picked and any other file never, so the batch size counts repeats |
| Upload.ImageFilesMembers | script.js:247 | the accepted files are exactly the picked files whose MIME type starts with `image/` |
| Upload.HandleUpload | script.js:240-256 | an empty pick and an all-non-image pick change nothing (the latter alerts); feedback, when shown, counts every image file; the selection and the drawn toolbar are untouched |
| Upload.Settle | script.js:257-285 | each callback counts once; the notice is either unchanged or the feedback for the batch size; the selection and screens are untouched |
| Upload.SettleBeforeLast | script.js:260-285 | before the batch is complete, every success has been prepended, nothing is saved and nothing is shown |
| Upload.SettleLast | script.js:268-279 | the batch's last callback saves and announces the total when it is a success, and does neither when it is a failure |
| Upload.UploadSettles | script.js:240-288 | once every image read has finished, the successes are prepended latest first; the list is saved with feedback equal to the number of image files exactly when the last read succeeded |
| Upload.UploadLastSucceeds | script.js:268-279 | a batch whose last read succeeds, below the cap, grows the list by the number of successful reads, saves it, and announces the number of image files |
| Upload.UploadOneFailureOfThree | script.js:268-285 | with at most 98 records before, three images with the middle read failing add two records, are saved, and announce three |
| Upload.UploadLeavesLabelStale | script.js:268-279 | an upload does not call `updateUI`: with fewer than 100 records, every one selected and a current toolbar, a batch whose last read succeeds leaves the label reading "deselect all" while pressing it now selects more |
| Upload.PhotoOf | script.js:261-266 | the record a successful read adds carries the data URL, the file's name and size, and the time the read finished |
| Upload.Complete | script.js:260-285 | a failed read only counts; a successful one prepends its record and counts, and saves and announces the batch size exactly when the new count equals it |
| Controller.OpenFeed | script.js:68-79 | opening the gallery shows it, clears the selection and redraws the toolbar, nothing else |
| Controller.CloseFeed | script.js:82-90 | closing the gallery hides it and leaves records, storage, selection and preview untouched |
| Controller.CloseThenOpenFeed | script.js:68-90 | leaving and re-entering the gallery is the same as opening it: records and storage are kept and the selection is forgotten |
| Controller.OpenPreview | script.js:201-206 | opening the preview shows the overlay with the given source |
| Controller.ClosePreview | script.js:208-212 | closing the preview hides the overlay, nothing else |
| Controller.HandleKey | script.js:328-347 | keys are ignored outside the gallery; Escape closes the preview if open, else the gallery; ctrl/cmd+a toggles select-all; Delete bulk-deletes only with a non-empty selection; other keys do nothing |
| Controller.EscapeClosesPreviewThenGallery | script.js:331-337 | with the preview open, one Escape closes it and a second closes the gallery, records untouched |
| Controller.DeleteKeyFollowsToolbar | script.js:344-346 | the Delete key checks the selection, not the drawn button: when the toolbar `updateUI` would draw for the state has delete disabled the key does nothing; otherwise a confirmed Delete clears a non-empty selection |
| Controller.Dispatch | script.js:131-145 | a cell click toggles selection with ctrl/cmd held and opens the preview otherwise; screen and preview events never touch records or storage; storage stays within the cap |
| Controller.StoredStaysCapped | script.js:294-299 | whatever the events, storage never holds more than 100 records if it did at load |

## Left out

- Reading the stored list at page load (`JSON.parse` of local storage with an empty-list fallback): I/O. The model starts from any gallery value, and a save is "stored := the capped list".
- The rendered markup, styles, the highlight pass of `updateUI` (a border on each drawn cell whose position is selected) and event-listener wiring: DOM plumbing. The cell data a render draws and the drawn toolbar are modelled.
- When the grid is redrawn: the model does not keep the drawn grid. `Render.RenderGrid` gives what a render of a state shows. The selection toggles do not re-render, so the `selected` class set at script.js:114 keeps its value until the next render; only the border from the highlight pass follows the toggle. For the same reason `CellClick` and `CellDeleteButton` take their index as a free input: a cell carries the position it had at the last render, and after an upload whose last read fails (no re-render) those positions name different records, so × on a cell can delete a record other than the one shown.
- The toolbar before the first `updateUI` (the page's initial markup): the `toolbar` field of a starting state is arbitrary.
- The checks that DOM elements exist (`if (feedScreen)` and the like): the model assumes the page's elements are present.
- The size caption (`toFixed(1)` on kilobytes): floating point. The date caption (`toLocaleDateString`): a locale-dependent library call.
- `updateImageCount`, console logging, the 3-second reset of the feedback text, `preventDefault` on ctrl/cmd+a and clearing the file input: presentation only.
- The dialogs themselves (`alert`, `confirm`): only the confirmation's answer (an input) and the alert's occurrence (`Upload.NotImagesAlert`) are modelled.
- `FileReader` asynchrony: a batch runs as one step over a given completion order, so other events cannot interleave with the reads.
- Failed storage writes: every save is assumed to succeed. `localStorage.setItem` throws when the storage quota is full, which is realistic since each record holds a whole data URL. The in-memory list would then already be truncated, storage would keep the old list, and an upload's `onload` would skip the render, the count and the feedback after the save.
- Negative indices and JavaScript's negative-start `splice`: every index the code puts in the selection or deletes is a `forEach` position, so indices are `nat`.
- Upload.UploadSettles: stated for completion orders that finish each image file exactly once (the reader's guarantee); other orders are modelled by `Upload.HandleUpload` but not characterised.
- Store.DeleteSelectedRemovesExactly: stated for lists of at most 100 records; a longer in-memory list (possible after an unsaved upload) is also truncated by the save, as `Store.DeleteSelected` states.

=== FILE: controller.dfy ===
/** The input side of the page: the two screens and the preview overlay,
    the keyboard shortcuts, and one dispatcher that maps every user event to
    the store operation it triggers. Dialog answers and modifier keys are
    inputs. */
module Controller {
  import opened Store
  import opened Upload

  /** `openFeed`: shows the gallery screen, clears the selection and
      redraws the toolbar. */
  function OpenFeed(g: Gallery): (r: Gallery)
    ensures r.feedActive && r.selected == {}
    ensures r.toolbar == ToolbarOf(r)
    ensures r == g.(feedActive := true, selected := {}, toolbar := r.toolbar)
  {
    Redraw(g.(feedActive := true, selected := {}))
  }

  /** `closeFeed`: back to the main screen; records, selection, storage and
      the preview overlay are untouched. */
  function CloseFeed(g: Gallery): (r: Gallery)
    ensures !r.feedActive
    ensures r.photos == g.photos && r.stored == g.stored && r.selected == g.selected
    ensures r.previewActive == g.previewActive
    ensures r == g.(feedActive := false)
  {
    g.(feedActive := false)
  }

  /** `openPreview`: shows the overlay with the given image source. */
  function OpenPreview(g: Gallery, src: string): (r: Gallery)
    ensures r.previewActive && r.previewSrc == src
    ensures r == g.(previewActive := true, previewSrc := src)
  {
    g.(previewActive := true, previewSrc := src)
  }

  /** `closePreview`: hides the overlay. */
  function ClosePreview(g: Gallery): (r: Gallery)
    ensures !r.previewActive
    ensures r == g.(previewActive := false)
  {
    g.(previewActive := false)
  }

  /** Leaving and re-entering the gallery keeps the records and the storage
      but forgets the selection. */
  lemma CloseThenOpenFeed(g: Gallery)
    ensures OpenFeed(CloseFeed(g)) == OpenFeed(g)
    ensures OpenFeed(CloseFeed(g)).selected == {}
    ensures OpenFeed(CloseFeed(g)).photos == g.photos
    ensures OpenFeed(CloseFeed(g)).stored == g.stored
  {
  }

  /** `handleKeyPress`. The three checks run one after another on the state
      the previous one left; a key matches at most one of them. `confirmed`
      is the answer to the dialog a bulk delete would open. */
  function HandleKey(g: Gallery, key: string, ctrl: bool, meta: bool, confirmed: bool): (r: Gallery)
    ensures !g.feedActive ==> r == g
    ensures g.feedActive && key == "Escape" ==>
      r == (if g.previewActive then ClosePreview(g) else CloseFeed(g))
    ensures g.feedActive && key == "a" ==>
      r == (if ctrl || meta then ToggleSelectAll(g) else g)
    ensures g.feedActive && key == "Delete" ==>
      r == (if g.selected == {} then g else DeleteSelected(g, confirmed))
    ensures key != "Escape" && key != "a" && key != "Delete" ==> r == g
  {
    if !g.feedActive then g
    else
      var afterEscape :=
        if key == "Escape" then (if g.previewActive then ClosePreview(g) else CloseFeed(g)) else g;
      var afterSelectAll :=
        if key == "a" && (ctrl || meta) then ToggleSelectAll(afterEscape) else afterEscape;
      if key == "Delete" && |afterSelectAll.selected| > 0 then DeleteSelected(afterSelectAll, confirmed)
      else afterSelectAll
  }

  /** Escape peels one layer at a time: an open preview first, the gallery
      screen next; after that keys are ignored. */
  lemma EscapeClosesPreviewThenGallery(g: Gallery, ctrl: bool, meta: bool, c: bool)
    requires g.feedActive && g.previewActive
    ensures HandleKey(g, "Escape", ctrl, meta, c).feedActive
    ensures !HandleKey(g, "Escape", ctrl, meta, c).previewActive
    ensures !HandleKey(HandleKey(g, "Escape", ctrl, meta, c), "Escape", ctrl, meta, c).feedActive
    ensures HandleKey(HandleKey(g, "Escape", ctrl, meta, c), "Escape", ctrl, meta, c).photos == g.photos
  {
  }

  /** The Delete key checks the selection, not the drawn button: it does
      nothing exactly when the toolbar `updateUI` would draw for this state
      has delete disabled, or the user declines. */
  lemma DeleteKeyFollowsToolbar(g: Gallery, ctrl: bool, meta: bool, confirmed: bool)
    requires g.feedActive
    ensures ToolbarOf(g).deleteDisabled ==> HandleKey(g, "Delete", ctrl, meta, confirmed) == g
    ensures !ToolbarOf(g).deleteDisabled && confirmed ==>
      HandleKey(g, "Delete", ctrl, meta, confirmed).selected == {} && g.selected != {}
  {
  }

  /** Every user action the page listens for. */
  datatype Event =
    | PhotosButton
    | BackButton
    | UploadChosen(files: seq<SourceFile>, completions: seq<ReadOutcome>)
    | SelectAllButton
    | DeleteSelectedButton(confirmed: bool)
    | CellDeleteButton(index: nat, confirmed: bool)
    | CellClick(index: nat, src: string, modifier: bool)
    | PreviewCloseButton
    | PreviewOverlayClick(onBackdrop: bool)
    | KeyDown(key: string, ctrl: bool, meta: bool, confirmed: bool)

  /** The state after one event (script.js:28-65 wires them). A click on a
      cell toggles its selection when ctrl or cmd is held and opens the
      preview of the cell's image otherwise; a click on the overlay closes it
      only when it lands on the backdrop. */
  function Dispatch(g: Gallery, e: Event): (r: Gallery)
    ensures e.PhotosButton? || e.BackButton? || e.PreviewCloseButton? || e.PreviewOverlayClick? || e.CellClick? ==>
      r.photos == g.photos && r.stored == g.stored
    ensures e.CellClick? && !e.modifier ==> r.previewActive && r.previewSrc == e.src && r.selected == g.selected
    ensures e.CellClick? && e.modifier ==> r == ToggleSelection(g, e.index)
    ensures |g.stored| <= RetentionCap ==> |r.stored| <= RetentionCap
  {
    match e
    case PhotosButton => OpenFeed(g)
    case BackButton => CloseFeed(g)
    case UploadChosen(files, completions) => HandleUpload(g, files, completions).0
    case SelectAllButton => ToggleSelectAll(g)
    case DeleteSelectedButton(confirmed) => DeleteSelected(g, confirmed)
    case CellDeleteButton(index, confirmed) => DeleteSingle(g, index, confirmed)
    case CellClick(index, src, modifier) =>
      if modifier then ToggleSelection(g, index) else OpenPreview(g, src)
    case PreviewCloseButton => ClosePreview(g)
    case PreviewOverlayClick(onBackdrop) => if onBackdrop then ClosePreview(g) else g
    case KeyDown(key, ctrl, meta, confirmed) => HandleKey(g, key, ctrl, meta, confirmed)
  }

  /** Whatever the events, storage never holds more than `RetentionCap`
      records, given that it did at page load. */
  lemma {:induction false} StoredStaysCapped(g: Gallery, events: seq<Event>)
    requires |g.stored| <= RetentionCap
    ensures |Run(g, events).stored| <= RetentionCap
    decreases |events|
  {
    if |events| > 0 {
      StoredStaysCapped(Dispatch(g, events[0]), events[1..]);
    }
  }

  /** The state after a sequence of events, first to last. */
  function Run(g: Gallery, events: seq<Event>): Gallery
    decreases |events|
  {
    if |events| == 0 then g else Run(Dispatch(g, events[0]), events[1..])
  }
}

=== FILE: records.dfy ===
/** Photo records and the caption name a grid cell shows for them. */
module Records {

  /** One stored image entry. `url` is the data URL the reader produced,
      `size` the original file size in bytes. A record read back from
      storage may have no name; the model writes a missing name as the
      empty string, which the code treats the same way (both are falsy). */
  datatype Photo = Photo(url: string, name: string, timestamp: string, size: nat)

  function DigitChar(d: nat): (c: char)
    requires d < 10
    ensures '0' <= c <= '9'
  {
    (48 + d) as char
  }

  /** Value of one decimal digit; any other character reads as 0. */
  function DigitValue(c: char): (d: nat)
    ensures d < 10
  {
    if '0' <= c <= '9' then (c as int) - 48 else 0
  }

  /** The decimal numeral JavaScript produces for a non-negative integer
      inside a template literal: digits only, no leading zero. */
  function Decimal(n: nat): (r: string)
    ensures |r| >= 1
    ensures forall k :: 0 <= k < |r| ==> '0' <= r[k] <= '9'
    ensures r[0] == '0' <==> n == 0
    decreases n
  {
    if n < 10 then [DigitChar(n)] else Decimal(n / 10) + [DigitChar(n % 10)]
  }

  /** Reads a string of decimal digits back as a number (most significant first). */
  function ParseDecimal(s: string): nat
    decreases |s|
  {
    if |s| == 0 then 0 else 10 * ParseDecimal(s[..|s| - 1]) + DigitValue(s[|s| - 1])
  }

  lemma {:induction false} ParseDecimalOfDecimal(n: nat)
    ensures ParseDecimal(Decimal(n)) == n
    decreases n
  {
    if n >= 10 {
      var s := Decimal(n);
      assert s[..|s| - 1] == Decimal(n / 10);
      ParseDecimalOfDecimal(n / 10);
      assert DigitValue(DigitChar(n % 10)) == n % 10;
    } else {
      assert DigitValue(DigitChar(n)) == n;
    }
  }

  /** The placeholder name of the record at position `index`: `obra_` followed
      by its one-based position (script.js:118). */
  function DefaultName(index: nat): (r: string)
    ensures |r| > 5 && r[..5] == "obra_"
  {
    "obra_" + Decimal(index + 1)
  }

  /** Different numbers have different numerals. */
  lemma DecimalInjective(a: nat, b: nat)
    requires Decimal(a) == Decimal(b)
    ensures a == b
  {
    ParseDecimalOfDecimal(a);
    ParseDecimalOfDecimal(b);
  }

  /** Distinct positions get distinct placeholder names. */
  lemma DefaultNameInjective(i: nat, j: nat)
    requires DefaultName(i) == DefaultName(j)
    ensures i == j
  {
    var a, b := Decimal(i + 1), Decimal(j + 1);
    calc {
      a;
      ("obra_" + a)[5..];
      ("obra_" + b)[5..];
      b;
    }
    DecimalInjective(i + 1, j + 1);
  }

  /** The caption name: the record's own name unless it is missing or empty. */
  function DisplayName(p: Photo, index: nat): (r: string)
    ensures r != ""
    ensures p.name != "" ==> r == p.name
    ensures p.name == "" ==> r == DefaultName(index)
  {
    if p.name != "" then p.name else DefaultName(index)
  }

  /** Two unnamed records at different positions never share a caption name. */
  lemma UnnamedCaptionsDistinct(p: Photo, i: nat, q: Photo, j: nat)
    requires p.name == "" && q.name == "" && i != j
    ensures DisplayName(p, i) != DisplayName(q, j)
  {
    if DisplayName(p, i) == DisplayName(q, j) {
      DefaultNameInjective(i, j);
    }
  }
}

=== FILE: removal.dfy ===
/** Removing records by position: one `splice(i, 1)`, a run of them in a
    given order, and the positional filter they are meant to compute. */
module Removal {

  /** `Array.prototype.splice(i, 1)` with a non-negative start: the record at
      `i` goes and the later ones move down by one; an index at or past the
      end removes nothing. */
  function RemoveAt<T>(s: seq<T>, i: nat): (r: seq<T>)
    ensures i >= |s| ==> r == s
    ensures i < |s| ==> |r| == |s| - 1
    ensures i < |s| ==> forall k :: 0 <= k < i ==> r[k] == s[k]
    ensures i < |s| ==> forall k :: i <= k < |r| ==> r[k] == s[k + 1]
  {
    if i < |s| then s[..i] + s[i + 1..] else s
  }

  /** Reference meaning of deleting the positions in `sel`: the records whose
      position is not selected, in their original order. */
  function Keep<T>(s: seq<T>, sel: set<nat>): seq<T>
    decreases |s|
  {
    if |s| == 0 then []
    else
      var last := |s| - 1;
      Keep(s[..last], sel) + (if last in sel then [] else [s[last]])
  }

  /** The selected positions below `n`. */
  function SelectedBelow(sel: set<nat>, n: nat): set<nat>
  {
    set i | i in sel && i < n
  }

  lemma SelectedBelowStep(sel: set<nat>, n: nat)
    ensures SelectedBelow(sel, n + 1) == SelectedBelow(sel, n) + (if n in sel then {n} else {})
    ensures n !in SelectedBelow(sel, n)
  {
  }

  lemma {:induction false} SelectedBelowBound(sel: set<nat>, n: nat)
    ensures |SelectedBelow(sel, n)| <= n
  {
    if n == 0 {
      assert SelectedBelow(sel, 0) == {};
    } else {
      SelectedBelowBound(sel, n - 1);
      SelectedBelowStep(sel, n - 1);
    }
  }

  /** Exactly the in-range selected positions are dropped. */
  lemma {:induction false} KeepLength<T>(s: seq<T>, sel: set<nat>)
    ensures |Keep(s, sel)| == |s| - |SelectedBelow(sel, |s|)|
  {
    if |s| == 0 {
      assert SelectedBelow(sel, 0) == {};
    } else {
      var last := |s| - 1;
      KeepLength(s[..last], sel);
      SelectedBelowStep(sel, last);
    }
  }

  /** A record at an unselected position survives, moved down by the number
      of selected positions before it: survivors keep their relative order. */
  lemma {:induction false} KeepPlacesSurvivor<T>(s: seq<T>, sel: set<nat>, i: nat)
    requires i < |s| && i !in sel
    ensures |SelectedBelow(sel, i)| <= i
    ensures i - |SelectedBelow(sel, i)| < |Keep(s, sel)|
    ensures Keep(s, sel)[i - |SelectedBelow(sel, i)|] == s[i]
  {
    SelectedBelowBound(sel, i);
    var last := |s| - 1;
    KeepLength(s[..last], sel);
    if i < last {
      KeepPlacesSurvivor(s[..last], sel, i);
    }
  }

  lemma {:induction false} KeepNoneSelected<T>(s: seq<T>)
    ensures Keep(s, {}) == s
  {
    if |s| > 0 {
      KeepNoneSelected(s[..|s| - 1]);
    }
  }

  /** Only the selected positions inside the list matter. */
  lemma {:induction false} KeepIgnoresOutOfRange<T>(s: seq<T>, a: set<nat>, b: set<nat>)
    requires forall i :: 0 <= i < |s| ==> (i in a <==> i in b)
    ensures Keep(s, a) == Keep(s, b)
  {
    if |s| > 0 {
      KeepIgnoresOutOfRange(s[..|s| - 1], a, b);
    }
  }

  /** With nothing selected from `j` on, the tail from `j` survives whole. */
  lemma {:induction false} KeepUnselectedTail<T>(s: seq<T>, sel: set<nat>, j: nat)
    requires j <= |s|
    requires forall i :: j <= i < |s| ==> i !in sel
    ensures Keep(s, sel) == Keep(s[..j], sel) + s[j..]
    decreases |s|
  {
    if |s| > j {
      var last := |s| - 1;
      KeepUnselectedTail(s[..last], sel, j);
      assert s[..last][..j] == s[..j];
      assert s[..last][j..] + [s[last]] == s[j..];
    } else {
      assert s[..j] == s;
    }
  }

  /** `splice(i, 1)` is deleting the single position `i`. */
  lemma RemoveAtIsKeep<T>(s: seq<T>, i: nat)
    ensures RemoveAt(s, i) == Keep(s, {i})
  {
    if i < |s| {
      KeepUnselectedTail(s, {i}, i + 1);
      assert s[..i + 1][..i] == s[..i];
      KeepIgnoresOutOfRange(s[..i], {i}, {});
      KeepNoneSelected(s[..i]);
    } else {
      KeepIgnoresOutOfRange(s, {i}, {});
      KeepNoneSelected(s);
    }
  }

  /** Applies `splice(i, 1)` for each `i` of `order`, first to last. */
  function SpliceEach<T>(s: seq<T>, order: seq<nat>): seq<T>
    decreases |order|
  {
    if |order| == 0 then s else SpliceEach(RemoveAt(s, order[0]), order[1..])
  }

  ghost predicate StrictlyDescending(order: seq<nat>)
  {
    forall i, j :: 0 <= i < j < |order| ==> order[i] > order[j]
  }

  /** Removals below the length of `p` never touch a suffix `q`. */
  lemma {:induction false} SpliceEachFrame<T>(p: seq<T>, q: seq<T>, order: seq<nat>)
    requires StrictlyDescending(order)
    requires forall k :: 0 <= k < |order| ==> order[k] < |p|
    ensures SpliceEach(p + q, order) == SpliceEach(p, order) + q
    decreases |order|
  {
    if |order| > 0 {
      var m := order[0];
      assert RemoveAt(p + q, m) == RemoveAt(p, m) + q;
      SpliceEachFrame(RemoveAt(p, m), q, order[1..]);
    }
  }

  /** Dropping the head of a strictly descending order drops its largest
      index from the set it lists. */
  lemma DescendingTail(order: seq<nat>, sel: set<nat>)
    requires |order| > 0 && StrictlyDescending(order)
    requires forall x :: x in sel <==> x in order
    ensures forall x :: x in sel - {order[0]} <==> x in order[1..]
    ensures forall x :: x in sel ==> x <= order[0]
  {
    forall x | x in order[1..]
      ensures x in sel - {order[0]}
    {
      var k :| 0 <= k < |order[1..]| && order[1..][k] == x;
      assert order[k + 1] == x;
    }
    forall x | x in sel
      ensures x <= order[0]
    {
      var k :| 0 <= k < |order| && order[k] == x;
    }
  }

  /** Deleting a largest selected position `m`: the records after `m`
      survive whole, and below `m` only the other selected positions go. */
  lemma KeepAtLargest<T>(s: seq<T>, m: nat, sel: set<nat>)
    requires m < |s| && m in sel
    requires forall x :: x in sel ==> x <= m
    ensures Keep(s, sel) == Keep(s[..m], sel - {m}) + s[m + 1..]
  {
    var upto, below := s[..m + 1], s[..m];
    assert forall i :: m + 1 <= i < |s| ==> i !in sel;
    KeepUnselectedTail(s, sel, m + 1);
    assert upto[..m] == below;
    assert Keep(upto, sel) == Keep(below, sel);
    KeepIgnoresOutOfRange(below, sel, sel - {m});
  }

  /** Splicing out `m` first, then indices below `m`, leaves the records
      after `m` alone. */
  lemma SpliceBelowLargest<T>(s: seq<T>, m: nat, rest: seq<nat>)
    requires m < |s|
    requires StrictlyDescending(rest)
    requires forall x :: x in rest ==> x < m
    ensures SpliceEach(RemoveAt(s, m), rest) == SpliceEach(s[..m], rest) + s[m + 1..]
  {
    forall k | 0 <= k < |rest|
      ensures rest[k] < m
    {
      assert rest[k] in rest;
    }
    assert RemoveAt(s, m) == s[..m] + s[m + 1..];
    SpliceEachFrame(s[..m], s[m + 1..], rest);
  }

  /** Splicing in strictly descending order deletes exactly the positions
      in the order and keeps the rest in their relative order. */
  lemma {:induction false} SpliceDescending<T>(s: seq<T>, order: seq<nat>, sel: set<nat>)
    requires StrictlyDescending(order)
    requires forall x :: x in sel <==> x in order
    ensures SpliceEach(s, order) == Keep(s, sel)
    decreases |order|
  {
    if |order| == 0 {
      assert sel == {};
      KeepNoneSelected(s);
    } else {
      var m, rest := order[0], order[1..];
      DescendingTail(order, sel);
      if m < |s| {
        SpliceDescending(s[..m], rest, sel - {m});
        SpliceBelowLargest(s, m, rest);
        KeepAtLargest(s, m, sel);
      } else {
        SpliceDescending(s, rest, sel - {m});
        KeepIgnoresOutOfRange(s, sel - {m}, sel);
      }
    }
  }

  predicate IsMaxOf(m: nat, sel: set<nat>)
  {
    m in sel && forall x :: x in sel ==> x <= m
  }

  lemma {:induction false} MaxExists(sel: set<nat>)
    requires sel != {}
    ensures exists m :: IsMaxOf(m, sel)
    decreases sel
  {
    var y :| y in sel;
    var others := sel - {y};
    if others == {} {
      forall x | x in sel
        ensures x <= y
      {
        assert x !in others;
      }
      assert IsMaxOf(y, sel);
    } else {
      MaxExists(others);
      var m :| IsMaxOf(m, others);
      var top := if m < y then y else m;
      forall x | x in sel
        ensures x <= top
      {
        if x != y {
          assert x in others;
        }
      }
      assert IsMaxOf(top, sel);
    }
  }

  /** The largest selected index. */
  function MaxOf(sel: set<nat>): (m: nat)
    requires sel != {}
    ensures m in sel
    ensures forall x :: x in sel ==> x <= m
  {
    MaxExists(sel);
    var m :| IsMaxOf(m, sel);
    m
  }

  /** `Array.from(sel).sort((a, b) => b - a)`: the selected indices, largest first. */
  function SortDescending(sel: set<nat>): (r: seq<nat>)
    ensures |r| == |sel|
    ensures forall x :: x in r <==> x in sel
    ensures StrictlyDescending(r)
    decreases sel
  {
    if sel == {} then []
    else
      var m := MaxOf(sel);
      var rest := SortDescending(sel - {m});
      PrependLarger(m, rest);
      [m] + rest
  }

  lemma PrependLarger(m: nat, rest: seq<nat>)
    requires StrictlyDescending(rest)
    requires forall x :: x in rest ==> x < m
    ensures StrictlyDescending([m] + rest)
  {
    var r := [m] + rest;
    forall i, j | 0 <= i < j < |r|
      ensures r[i] > r[j]
    {
      assert r[j] == rest[j - 1];
      if i > 0 {
        assert r[i] == rest[i - 1];
      } else {
        assert rest[j - 1] in rest;
      }
    }
  }
}

=== FILE: render.dfy ===
/** What `renderFeedPhotos` puts in the grid, reduced to the data each cell
    carries: its position, image source, caption name and whether it has
    the `selected` class. */
module Render {
  import opened Records
  import opened Store

  datatype Cell = Cell(index: nat, src: string, name: string, selectedClass: bool)

  /** Either the single empty-gallery message or one cell per record. */
  datatype Grid = EmptyMessage | Cells(cells: seq<Cell>)

  /** The cell of record `p` at position `index`. */
  function CellFor(p: Photo, index: nat, selected: set<nat>): Cell
  {
    Cell(index, p.url, DisplayName(p, index), index in selected)
  }

  /** The cells for `photos`, whose first record sits at position `from`. */
  function CellsFrom(photos: seq<Photo>, selected: set<nat>, from: nat): (r: seq<Cell>)
    ensures |r| == |photos|
    ensures forall k :: 0 <= k < |r| ==> r[k] == CellFor(photos[k], from + k, selected)
    decreases |photos|
  {
    if |photos| == 0 then []
    else
      [CellFor(photos[0], from, selected)] + CellsFrom(photos[1..], selected, from + 1)
  }

  function RenderGrid(g: Gallery): (r: Grid)
    ensures r.EmptyMessage? <==> |g.photos| == 0
    ensures r.Cells? ==> |r.cells| == |g.photos|
    ensures r.Cells? ==> forall k :: 0 <= k < |r.cells| ==>
      && r.cells[k].index == k
      && r.cells[k].src == g.photos[k].url
      && r.cells[k].name == DisplayName(g.photos[k], k)
      && (r.cells[k].selectedClass <==> k in g.selected)
  {
    if |g.photos| == 0 then EmptyMessage else Cells(CellsFrom(g.photos, g.selected, 0))
  }

  /** Toggling one record's selection flips the class of its cell and of no
      other cell. */
  lemma ToggleFlipsOneCell(g: Gallery, index: nat, k: nat)
    requires k < |g.photos|
    ensures RenderGrid(ToggleSelection(g, index)).Cells?
    ensures RenderGrid(ToggleSelection(g, index)).cells[k].selectedClass
      == (RenderGrid(g).cells[k].selectedClass != (k == index))
  {
  }

  /** No two cells of unnamed records show the same name. */
  lemma UnnamedCellNamesDistinct(g: Gallery, i: nat, j: nat)
    requires i < j < |g.photos|
    requires g.photos[i].name == "" && g.photos[j].name == ""
    ensures RenderGrid(g).Cells?
    ensures RenderGrid(g).cells[i].name != RenderGrid(g).cells[j].name
  {
    UnnamedCaptionsDistinct(g.photos[i], i, g.photos[j], j);
  }
}

=== FILE: store.dfy ===
/** The gallery's state and the store operations on it: save with the
    retention cap, selection changes, bulk and single deletion, and the
    toolbar state derived from the selection. */
module Store {
  import opened Records
  import opened Removal

  /** The most records a save keeps (script.js:295). */
  const RetentionCap: nat := 100

  /** Everything the page's logic keeps between events.
      `photos` is the in-memory list, newest first; `stored` is the list as
      last written to the browser's storage; `selected` holds the indices
      marked for bulk action; `previewSrc` is the source last shown in the
      preview overlay; `toolbar` is the toolbar as `updateUI` last drew it,
      which only opening the gallery and the two selection toggles redraw. */
  datatype Gallery = Gallery(
    photos: seq<Photo>,
    selected: set<nat>,
    feedActive: bool,
    previewActive: bool,
    previewSrc: string,
    stored: seq<Photo>,
    toolbar: Toolbar)

  /** The records a save keeps: the newest `RetentionCap` of them. */
  function Cap(s: seq<Photo>): (r: seq<Photo>)
    ensures r <= s
    ensures |r| == if |s| <= RetentionCap then |s| else RetentionCap
  {
    if |s| > RetentionCap then s[..RetentionCap] else s
  }

  /** `savePhotos`: truncates the in-memory list to the cap and writes it to
      storage; nothing else changes. */
  function Save(g: Gallery): (r: Gallery)
    ensures |r.photos| <= RetentionCap
    ensures r.photos <= g.photos
    ensures |g.photos| <= RetentionCap ==> r.photos == g.photos
    ensures |g.photos| > RetentionCap ==> |r.photos| == RetentionCap
    ensures r.stored == r.photos
    ensures r == g.(photos := r.photos, stored := r.photos)
  {
    var kept := Cap(g.photos);
    g.(photos := kept, stored := kept)
  }

  /** Saving twice is saving once. */
  lemma SaveIdempotent(g: Gallery)
    ensures Save(Save(g)) == Save(g)
  {
  }

  /** `updateUI` applied to a state: the toolbar it draws is redrawn from
      the selection, and nothing else changes. */
  function Redraw(g: Gallery): (r: Gallery)
    ensures r.toolbar == ToolbarOf(g)
    ensures r == g.(toolbar := r.toolbar)
  {
    g.(toolbar := ToolbarOf(g))
  }

  /** `toggleImageSelection`: flips the membership of one index and redraws
      the toolbar. */
  function ToggleSelection(g: Gallery, index: nat): (r: Gallery)
    ensures forall k: nat :: k in r.selected <==> (k in g.selected <==> k != index)
    ensures r.toolbar == ToolbarOf(r)
    ensures r == g.(selected := r.selected, toolbar := r.toolbar)
  {
    if index in g.selected then Redraw(g.(selected := g.selected - {index}))
    else Redraw(g.(selected := g.selected + {index}))
  }

  /** Toggling the same index twice restores the state, with the toolbar
      redrawn. */
  lemma ToggleSelectionInvolution(g: Gallery, index: nat)
    ensures ToggleSelection(ToggleSelection(g, index), index) == Redraw(g)
  {
    var once := ToggleSelection(g, index);
    assert ToggleSelection(once, index).selected == g.selected;
  }

  /** Every position of a list of `n` records. */
  function AllIndices(n: nat): set<nat>
  {
    if n == 0 then {} else AllIndices(n - 1) + {n - 1}
  }

  /** `AllIndices(n)` holds exactly the positions below `n`, so it has `n` members. */
  lemma {:induction false} AllIndicesExact(n: nat)
    ensures forall k: nat :: k in AllIndices(n) <==> k < n
    ensures |AllIndices(n)| == n
  {
    if n > 0 {
      var prev := AllIndices(n - 1);
      AllIndicesExact(n - 1);
      assert n - 1 !in prev;
      assert AllIndices(n) == prev + {n - 1};
      assert |prev + {n - 1}| == |prev| + 1;
    }
  }

  /** Only in-range positions are selected. */
  predicate SelectionInBounds(g: Gallery)
  {
    forall k :: k in g.selected ==> k < |g.photos|
  }

  /** An in-range selection as large as the list is the whole list. */
  lemma FullSizeMeansAll(g: Gallery)
    requires SelectionInBounds(g)
    ensures |g.selected| == |g.photos| <==> g.selected == AllIndices(|g.photos|)
  {
    var all := AllIndices(|g.photos|);
    AllIndicesExact(|g.photos|);
    assert g.selected <= all;
    if |g.selected| == |g.photos| {
      assert g.selected * all == g.selected;
      assert |all - g.selected| == 0;
      assert all - g.selected == {};
    }
  }

  /** `toggleSelectAll`: the decision compares the selection's size with the
      list's length; otherwise every position is added to what is selected.
      The toolbar is redrawn. */
  function ToggleSelectAll(g: Gallery): (r: Gallery)
    ensures |g.selected| == |g.photos| ==> r.selected == {}
    ensures |g.selected| != |g.photos| ==>
      forall k: nat :: k in r.selected <==> k in g.selected || k < |g.photos|
    ensures r.toolbar == ToolbarOf(r)
    ensures r == g.(selected := r.selected, toolbar := r.toolbar)
  {
    if |g.selected| == |g.photos| then Redraw(g.(selected := {}))
    else
      AllIndicesExact(|g.photos|);
      Redraw(g.(selected := g.selected + AllIndices(|g.photos|)))
  }

  /** With an in-range selection, select-all selects the whole list unless it
      already is, and then clears it. */
  lemma ToggleSelectAllInBounds(g: Gallery)
    requires SelectionInBounds(g)
    ensures ToggleSelectAll(g).selected ==
      if g.selected == AllIndices(|g.photos|) then {} else AllIndices(|g.photos|)
  {
    FullSizeMeansAll(g);
    AllIndicesExact(|g.photos|);
    if |g.selected| != |g.photos| {
      assert g.selected + AllIndices(|g.photos|) == AllIndices(|g.photos|);
    }
  }

  /** From an empty selection, select-all gives every position and a second
      toggle gives the empty selection again. */
  lemma SelectAllThenDeselect(g: Gallery)
    requires g.selected == {}
    ensures ToggleSelectAll(g).selected == AllIndices(|g.photos|)
    ensures ToggleSelectAll(ToggleSelectAll(g)).selected == {}
  {
    ToggleSelectAllInBounds(g);
    AllIndicesExact(|g.photos|);
  }

  /** A selected index past the end (left behind by a single delete), with a
      selection whose size differs from the list length: select-all grows
      the selection past the length, and pressing it again, while the list
      does not change, leaves the selection as it is. */
  lemma StaleIndexBlocksDeselect(g: Gallery, stale: nat)
    requires stale in g.selected && stale >= |g.photos|
    requires |g.selected| != |g.photos|
    ensures ToggleSelectAll(ToggleSelectAll(g)) == ToggleSelectAll(g)
    ensures |ToggleSelectAll(g).selected| > |g.photos|
  {
    var all := AllIndices(|g.photos|);
    var once := ToggleSelectAll(g).selected;
    AllIndicesExact(|g.photos|);
    assert all + {stale} <= once;
    assert stale !in all;
    assert |all + {stale}| == |g.photos| + 1;
    assert |once| >= |all + {stale}| by {
      assert once == (all + {stale}) + (once - (all + {stale}));
    }
    assert once + all == once;
  }

  /** `deleteSelected`: with a non-empty selection and the user's
      confirmation, splices each selected index out, largest first, clears
      the selection and saves. */
  function DeleteSelected(g: Gallery, confirmed: bool): (r: Gallery)
    ensures g.selected == {} || !confirmed ==> r == g
    ensures g.selected != {} && confirmed ==>
      r == Save(g.(photos := Keep(g.photos, g.selected), selected := {}))
  {
    if |g.selected| == 0 then g
    else if !confirmed then g
    else
      var order := SortDescending(g.selected);
      SpliceDescending(g.photos, order, g.selected);
      Save(g.(photos := SpliceEach(g.photos, order), selected := {}))
  }

  /** A confirmed bulk delete of at most `RetentionCap` records drops exactly
      the in-range selected positions, and every unselected record survives,
      moved down by the number of selected positions before it. */
  lemma DeleteSelectedRemovesExactly(g: Gallery, i: nat)
    requires g.selected != {} && |g.photos| <= RetentionCap
    requires i < |g.photos| && i !in g.selected
    ensures |DeleteSelected(g, true).photos| == |g.photos| - |SelectedBelow(g.selected, |g.photos|)|
    ensures |SelectedBelow(g.selected, i)| <= i
    ensures i - |SelectedBelow(g.selected, i)| < |DeleteSelected(g, true).photos|
    ensures DeleteSelected(g, true).photos[i - |SelectedBelow(g.selected, i)|] == g.photos[i]
  {
    KeepLength(g.photos, g.selected);
    KeepPlacesSurvivor(g.photos, g.selected, i);
  }

  /** Five records with the first and the last selected: a confirmed bulk
      delete leaves the three middle records in their order. */
  lemma DeleteSelectedFirstAndLast(g: Gallery, a: Photo, b: Photo, c: Photo, d: Photo, e: Photo)
    requires g.photos == [a, b, c, d, e] && g.selected == {0, 4}
    ensures DeleteSelected(g, true).photos == [b, c, d]
    ensures DeleteSelected(g, true).selected == {}
  {
    var s := g.photos;
    assert s[..4] == [a, b, c, d];
    assert s[..4][..3] == [a, b, c];
    assert s[..4][..3][..2] == [a, b];
    assert s[..4][..3][..2][..1] == [a];
    assert [a][..0] == [];
    assert Keep([a], {0, 4}) == [];
    assert Keep([a, b], {0, 4}) == [b];
    assert Keep([a, b, c], {0, 4}) == [b, c];
    assert Keep([a, b, c, d], {0, 4}) == [b, c, d];
  }

  /** `deleteSingleImage`: with the user's confirmation, splices out one
      position (nothing when it is out of range) and drops that index from
      the selection without renumbering the others, then saves. */
  function DeleteSingle(g: Gallery, index: nat, confirmed: bool): (r: Gallery)
    ensures !confirmed ==> r == g
    ensures confirmed ==>
      r == Save(g.(photos := Keep(g.photos, {index}), selected := r.selected))
    ensures confirmed ==> forall k: nat :: k in r.selected <==> k in g.selected && k != index
  {
    if confirmed then
      RemoveAtIsKeep(g.photos, index);
      Save(g.(photos := RemoveAt(g.photos, index), selected := g.selected - {index}))
    else g
  }

  /** Because later indices are not renumbered, a selected index above the
      deleted one stays selected but now names the record that followed the
      one the user selected. */
  lemma DeleteSingleRetargetsSelection(g: Gallery, index: nat, k: nat)
    requires k < RetentionCap
    requires index < k && k + 1 < |g.photos| && k in g.selected
    ensures k in DeleteSingle(g, index, true).selected
    ensures DeleteSingle(g, index, true).photos[k] == g.photos[k + 1]
  {
    RemoveAtIsKeep(g.photos, index);
  }

  datatype SelectLabel = SelectAllLabel | DeselectAllLabel

  /** The toolbar state `updateUI` draws. */
  datatype Toolbar = Toolbar(selectLabel: SelectLabel, deleteDisabled: bool)

  /** The toolbar `updateUI` would draw for a state's selection and list. */
  function ToolbarOf(g: Gallery): (t: Toolbar)
    ensures t.selectLabel == DeselectAllLabel <==> |g.selected| == |g.photos|
    ensures t.deleteDisabled <==> g.selected == {}
  {
    Toolbar(
      if |g.selected| == |g.photos| then DeselectAllLabel else SelectAllLabel,
      |g.selected| == 0)
  }

  /** The select-all label announces what the button does: it reads
      "deselect" exactly when pressing it empties the selection. */
  lemma ToolbarLabelPredictsToggle(g: Gallery)
    ensures ToolbarOf(g).selectLabel == DeselectAllLabel <==> ToggleSelectAll(g).selected == {}
  {
    AllIndicesExact(|g.photos|);
    if |g.selected| != |g.photos| {
      if |g.photos| > 0 {
        assert 0 in ToggleSelectAll(g).selected;
      } else {
        var k :| k in g.selected;
        assert k in ToggleSelectAll(g).selected;
      }
    }
  }

  /** With an in-range selection, "deselect" shows exactly when every
      position is selected. */
  lemma ToolbarLabelInBounds(g: Gallery)
    requires SelectionInBounds(g)
    ensures ToolbarOf(g).selectLabel == DeselectAllLabel <==> g.selected == AllIndices(|g.photos|)
  {
    FullSizeMeansAll(g);
  }

  /** A bulk delete does not redraw the toolbar: starting from a current
      toolbar, a confirmed delete empties the selection but leaves the
      delete button enabled, and pressing it then changes nothing. */
  lemma DeleteLeavesButtonEnabled(g: Gallery)
    requires g.toolbar == ToolbarOf(g) && g.selected != {}
    ensures DeleteSelected(g, true).selected == {}
    ensures !DeleteSelected(g, true).toolbar.deleteDisabled
    ensures ToolbarOf(DeleteSelected(g, true)).deleteDisabled
    ensures DeleteSelected(DeleteSelected(g, true), true) == DeleteSelected(g, true)
  {
  }

  /** The delete button is disabled exactly when a confirmed bulk delete
      would leave the selection as it is. */
  lemma ToolbarDeletePredictsDelete(g: Gallery)
    ensures ToolbarOf(g).deleteDisabled <==> DeleteSelected(g, true).selected == g.selected
  {
  }
}

=== FILE: upload.dfy ===
/** The upload flow of `handleFileUpload`: image filtering, one completion
    callback per read, and the counter that decides when the batch is saved
    and announced. The reads' completion order is an input. */
module Upload {
  import opened Records
  import opened Store

  /** A file the user picked: its name, MIME type and size in bytes. */
  datatype SourceFile = SourceFile(name: string, mime: string, size: nat)

  /** How one read finished. `Loaded` carries the data URL the reader
      produced and the clock reading (ISO text) taken when it finished. */
  datatype ReadOutcome =
    | Loaded(file: SourceFile, dataUrl: string, readAt: string)
    | ReadFailed(file: SourceFile)

  /** What the user is shown for a batch. */
  datatype Notice = Quiet | NotImagesAlert | AddedFeedback(count: nat)

  /** `f.type.startsWith('image/')`. */
  predicate IsImage(f: SourceFile)
  {
    "image/" <= f.mime
  }

  /** The picked files that are images, in picking order. */
  function ImageFiles(files: seq<SourceFile>): (r: seq<SourceFile>)
    ensures |r| <= |files|
    decreases |files|
  {
    if |files| == 0 then []
    else (if IsImage(files[0]) then [files[0]] else []) + ImageFiles(files[1..])
  }

  /** Each image file is accepted as many times as it was picked, and any
      other file never, so the batch size is the number of image files
      picked, repeats included. */
  lemma {:induction false} ImageFilesCount(files: seq<SourceFile>, f: SourceFile)
    ensures multiset(ImageFiles(files))[f] == if IsImage(f) then multiset(files)[f] else 0
    decreases |files|
  {
    if |files| > 0 {
      assert files == [files[0]] + files[1..];
      ImageFilesCount(files[1..], f);
    }
  }

  /** The accepted files are exactly the picked files that are images. */
  lemma ImageFilesMembers(files: seq<SourceFile>, f: SourceFile)
    ensures f in ImageFiles(files) <==> f in files && IsImage(f)
  {
    ImageFilesCount(files, f);
    assert f in ImageFiles(files) <==> multiset(ImageFiles(files))[f] > 0;
    assert f in files <==> multiset(files)[f] > 0;
  }

  /** The record `onload` prepends (script.js:261-266). */
  function PhotoOf(o: ReadOutcome): (p: Photo)
    requires o.Loaded?
    ensures p.url == o.dataUrl && p.name == o.file.name && p.size == o.file.size
    ensures p.timestamp == o.readAt
  {
    Photo(o.dataUrl, o.file.name, o.readAt, o.file.size)
  }

  /** Progress of a batch: the gallery so far, how many reads have
      finished, and the notice shown so far. */
  datatype Batch = Batch(gallery: Gallery, done: nat, notice: Notice)

  /** One completion callback. A success prepends its record and counts;
      if the count then equals the batch size the list is saved and the
      count is announced. A failure only counts: `onerror` never checks
      whether the batch is finished. */
  function Complete(b: Batch, total: nat, o: ReadOutcome): (r: Batch)
    ensures r.done == b.done + 1
    ensures o.ReadFailed? ==> r == b.(done := b.done + 1)
    ensures o.Loaded? && b.done + 1 == total ==>
      r == Batch(Save(b.gallery.(photos := [PhotoOf(o)] + b.gallery.photos)), total, AddedFeedback(total))
    ensures o.Loaded? && b.done + 1 != total ==>
      r == Batch(b.gallery.(photos := [PhotoOf(o)] + b.gallery.photos), b.done + 1, b.notice)
  {
    match o
    case ReadFailed(_) => b.(done := b.done + 1)
    case Loaded(_, _, _) =>
      var g := b.gallery.(photos := [PhotoOf(o)] + b.gallery.photos);
      var done := b.done + 1;
      if done == total then Batch(Save(g), done, AddedFeedback(done))
      else Batch(g, done, b.notice)
  }

  /** Runs the completion callbacks in the given order. */
  function Settle(b: Batch, total: nat, outs: seq<ReadOutcome>): (r: Batch)
    ensures r.done == b.done + |outs|
    ensures r.notice == b.notice || r.notice == AddedFeedback(total)
    ensures r.gallery.selected == b.gallery.selected
    ensures r.gallery.feedActive == b.gallery.feedActive
    ensures r.gallery.previewActive == b.gallery.previewActive
    ensures r.gallery.previewSrc == b.gallery.previewSrc
    ensures r.gallery.toolbar == b.gallery.toolbar
    ensures |b.gallery.stored| <= RetentionCap ==> |r.gallery.stored| <= RetentionCap
    decreases |outs|
  {
    if |outs| == 0 then b
    else Complete(Settle(b, total, outs[..|outs| - 1]), total, outs[|outs| - 1])
  }

  /** `handleFileUpload` for one batch whose reads finish in the order
      `outs`. Returns the gallery after the last callback and the notice. */
  function HandleUpload(g: Gallery, files: seq<SourceFile>, outs: seq<ReadOutcome>): (r: (Gallery, Notice))
    ensures |files| == 0 ==> r == (g, Quiet)
    ensures |files| > 0 && ImageFiles(files) == [] ==> r == (g, NotImagesAlert)
    ensures r.1.AddedFeedback? ==> r.1.count == |ImageFiles(files)|
    ensures r.0.selected == g.selected && r.0.toolbar == g.toolbar
    ensures |g.stored| <= RetentionCap ==> |r.0.stored| <= RetentionCap
  {
    if |files| == 0 then (g, Quiet)
    else
      var images := ImageFiles(files);
      if |images| == 0 then (g, NotImagesAlert)
      else
        var b := Settle(Batch(g, 0, Quiet), |images|, outs);
        (b.gallery, b.notice)
  }

  /** The records of the successful reads, in completion order. */
  function Successful(outs: seq<ReadOutcome>): seq<Photo>
    decreases |outs|
  {
    if |outs| == 0 then []
    else (if outs[0].Loaded? then [PhotoOf(outs[0])] else []) + Successful(outs[1..])
  }

  function Reverse<T>(s: seq<T>): (r: seq<T>)
    ensures |r| == |s|
    ensures forall k :: 0 <= k < |s| ==> r[k] == s[|s| - 1 - k]
    decreases |s|
  {
    if |s| == 0 then [] else Reverse(s[1..]) + [s[0]]
  }

  /** The number of successful reads. */
  function Successes(outs: seq<ReadOutcome>): nat
    decreases |outs|
  {
    if |outs| == 0 then 0 else (if outs[0].Loaded? then 1 else 0) + Successes(outs[1..])
  }

  lemma {:induction false} SuccessfulLength(outs: seq<ReadOutcome>)
    ensures |Successful(outs)| == Successes(outs)
    decreases |outs|
  {
    if |outs| > 0 {
      SuccessfulLength(outs[1..]);
    }
  }

  lemma {:induction false} SuccessfulSnoc(outs: seq<ReadOutcome>, o: ReadOutcome)
    ensures Successful(outs + [o]) == Successful(outs) + (if o.Loaded? then [PhotoOf(o)] else [])
    decreases |outs|
  {
    if |outs| > 0 {
      assert (outs + [o])[1..] == outs[1..] + [o];
      SuccessfulSnoc(outs[1..], o);
    } else {
      assert outs + [o] == [o];
    }
  }

  /** The files the completions belong to, in completion order. */
  function FilesOf(outs: seq<ReadOutcome>): (r: seq<SourceFile>)
    ensures |r| == |outs|
    ensures forall k :: 0 <= k < |outs| ==> r[k] == outs[k].file
  {
    seq(|outs|, k requires 0 <= k < |outs| => outs[k].file)
  }

  lemma {:induction false} ReverseSnoc<T>(s: seq<T>, x: T)
    ensures Reverse(s + [x]) == [x] + Reverse(s)
  {
    var l, r := Reverse(s + [x]), [x] + Reverse(s);
    assert |l| == |r|;
    forall k | 0 <= k < |l|
      ensures l[k] == r[k]
    {
      if k > 0 {
        assert r[k] == Reverse(s)[k - 1];
      }
    }
  }

  /** The records added so far, latest completion first, grow at the front
      by the last completion's record when it is a success. */
  lemma AddedByLast(outs: seq<ReadOutcome>)
    requires |outs| > 0
    ensures Reverse(Successful(outs))
      == (if outs[|outs| - 1].Loaded? then [PhotoOf(outs[|outs| - 1])] else [])
         + Reverse(Successful(outs[..|outs| - 1]))
  {
    var init, o := outs[..|outs| - 1], outs[|outs| - 1];
    assert outs == init + [o];
    SuccessfulSnoc(init, o);
    if o.Loaded? {
      ReverseSnoc(Successful(init), PhotoOf(o));
    } else {
      assert Successful(init) + [] == Successful(init);
    }
  }

  /** Before the last read finishes, every success has been prepended,
      nothing has been saved and nothing has been shown. */
  lemma {:induction false} SettleBeforeLast(g: Gallery, total: nat, outs: seq<ReadOutcome>)
    requires |outs| < total
    ensures Settle(Batch(g, 0, Quiet), total, outs)
      == Batch(g.(photos := Reverse(Successful(outs)) + g.photos), |outs|, Quiet)
    decreases |outs|
  {
    if |outs| > 0 {
      var init, o := outs[..|outs| - 1], outs[|outs| - 1];
      SettleBeforeLast(g, total, init);
      AddedByLast(outs);
      var added := Reverse(Successful(init));
      if o.Loaded? {
        assert [PhotoOf(o)] + (added + g.photos) == ([PhotoOf(o)] + added) + g.photos;
      } else {
        assert [] + added == added;
      }
    }
  }

  /** The last callback of a batch of `total` reads. */
  lemma {:induction false} SettleLast(g: Gallery, total: nat, outs: seq<ReadOutcome>)
    requires |outs| == total > 0
    ensures outs[total - 1].Loaded? ==>
      Settle(Batch(g, 0, Quiet), total, outs)
        == Batch(Save(g.(photos := Reverse(Successful(outs)) + g.photos)), total, AddedFeedback(total))
    ensures outs[total - 1].ReadFailed? ==>
      Settle(Batch(g, 0, Quiet), total, outs)
        == Batch(g.(photos := Reverse(Successful(outs)) + g.photos), total, Quiet)
  {
    var init, o := outs[..total - 1], outs[total - 1];
    SettleBeforeLast(g, total, init);
    AddedByLast(outs);
    var added := Reverse(Successful(init));
    if o.Loaded? {
      assert [PhotoOf(o)] + (added + g.photos) == ([PhotoOf(o)] + added) + g.photos;
    } else {
      assert [] + added == added;
    }
  }

  /** Once every image read has finished: every success was prepended, latest
      completion first. When the last read to finish succeeded, the list was
      saved and the feedback shows the number of image files, failures
      included. When it failed, nothing was saved and nothing was shown,
      although the records stay in memory. */
  lemma UploadSettles(g: Gallery, files: seq<SourceFile>, outs: seq<ReadOutcome>)
    requires ImageFiles(files) != []
    requires multiset(FilesOf(outs)) == multiset(ImageFiles(files))
    ensures |outs| == |ImageFiles(files)|
    ensures |Reverse(Successful(outs))| == Successes(outs)
    ensures outs[|outs| - 1].Loaded? ==>
      (HandleUpload(g, files, outs)
        == (Save(g.(photos := Reverse(Successful(outs)) + g.photos)), AddedFeedback(|ImageFiles(files)|)))
    ensures outs[|outs| - 1].ReadFailed? ==>
      (HandleUpload(g, files, outs) == (g.(photos := Reverse(Successful(outs)) + g.photos), Quiet))
  {
    assert |FilesOf(outs)| == |multiset(FilesOf(outs))|;
    SuccessfulLength(outs);
    SettleLast(g, |ImageFiles(files)|, outs);
  }

  /** A batch whose last read succeeds, below the cap: the list grows by the
      number of successful reads, storage holds the grown list, and the
      feedback counts every image file. */
  lemma UploadLastSucceeds(g: Gallery, files: seq<SourceFile>, outs: seq<ReadOutcome>)
    requires ImageFiles(files) != []
    requires multiset(FilesOf(outs)) == multiset(ImageFiles(files))
    requires outs[|outs| - 1].Loaded?
    requires |g.photos| + Successes(outs) <= RetentionCap
    ensures |HandleUpload(g, files, outs).0.photos| == |g.photos| + Successes(outs)
    ensures HandleUpload(g, files, outs).0.stored == HandleUpload(g, files, outs).0.photos
    ensures HandleUpload(g, files, outs).1 == AddedFeedback(|ImageFiles(files)|)
  {
    UploadSettles(g, files, outs);
  }

  /** Three image files whose middle read fails: two records are added and the
      feedback reads three, the size of the batch rather than the number of
      records added. */
  lemma UploadOneFailureOfThree(g: Gallery, a: SourceFile, b: SourceFile, c: SourceFile, urlA: string, urlC: string, at: string)
    requires IsImage(a) && IsImage(b) && IsImage(c)
    requires |g.photos| + 2 <= RetentionCap
    ensures var r := HandleUpload(g, [a, b, c], [Loaded(a, urlA, at), ReadFailed(b), Loaded(c, urlC, at)]);
      && |r.0.photos| == |g.photos| + 2
      && r.0.stored == r.0.photos
      && r.1 == AddedFeedback(3)
  {
    var outs := [Loaded(a, urlA, at), ReadFailed(b), Loaded(c, urlC, at)];
    ImageFilesOfThree(a, b, c);
    assert FilesOf(outs) == [a, b, c];
    SuccessesOfOneFailure(outs);
    UploadLastSucceeds(g, [a, b, c], outs);
  }

  /** An upload does not redraw the toolbar: with fewer than `RetentionCap`
      records, every one selected and the toolbar current, a batch whose
      last read succeeds leaves the label reading "deselect all", yet
      pressing it now selects more instead of clearing. */
  lemma UploadLeavesLabelStale(g: Gallery, files: seq<SourceFile>, outs: seq<ReadOutcome>)
    requires g.toolbar == ToolbarOf(g) && |g.selected| == |g.photos|
    requires ImageFiles(files) != []
    requires multiset(FilesOf(outs)) == multiset(ImageFiles(files))
    requires outs[|outs| - 1].Loaded?
    requires |g.photos| < RetentionCap
    ensures HandleUpload(g, files, outs).0.toolbar.selectLabel == DeselectAllLabel
    ensures ToggleSelectAll(HandleUpload(g, files, outs).0).selected != {}
  {
    var r := HandleUpload(g, files, outs).0;
    UploadSettles(g, files, outs);
    AddedByLast(outs);
    assert |Reverse(Successful(outs)) + g.photos| > |g.photos|;
    assert |r.photos| > |r.selected|;
    ToolbarLabelPredictsToggle(r);
  }

  lemma ImageFilesOfThree(a: SourceFile, b: SourceFile, c: SourceFile)
    requires IsImage(a) && IsImage(b) && IsImage(c)
    ensures ImageFiles([a, b, c]) == [a, b, c]
  {
    assert [c][1..] == [];
    assert ImageFiles([c]) == [c];
    assert [b, c][1..] == [c];
    assert ImageFiles([b, c]) == [b, c];
    assert [a, b, c][1..] == [b, c];
  }

  lemma SuccessesOfOneFailure(outs: seq<ReadOutcome>)
    requires |outs| == 3 && outs[0].Loaded? && outs[1].ReadFailed? && outs[2].Loaded?
    ensures Successes(outs) == 2
  {
    var tail1, tail2 := outs[1..], outs[2..];
    assert tail1[1..] == tail2;
    assert tail2[1..] == [];
    assert Successes(tail2) == 1;
    assert Successes(tail1) == 1;
  }
}
